=== FILE: README.md ===
# PhotoFrame background-removal services: input handling in Dafny

PhotoFrame ships four near-duplicate HTTP handlers that accept an image,
hand its bytes to a background-removal engine (the `rembg` library, or a
hosted inference model) and return the result as a
`data:image/png;base64,...` data URL. The engine and the network are outside
this model. What is modelled is everything the handlers decide on their own:

- the simplified multipart/form-data extractor of the serverless upload
  handler (`parse_multipart`);
- the Content-Type routing of that handler (multipart, then JSON, then raw
  bytes);
- the reading of a JSON `image_data`: a `data:image/` prefix, an `http`
  prefix, or anything else, which each handler treats differently;
- data-URL decoding (split at the first comma, then `base64.b64decode`) and
  result encoding (`base64.b64encode`), with the round trip between them;
- the order of the validation checks in every endpoint, the status code each
  outcome gets, and the exact error texts and prefixes.

Modules, one per concern or source file:

| module | file | models |
|---|---|---|
| `Results` | results.dfy | a raised exception as `Err(str(e))` |
| `Seqs` | seqs.dfy | `startswith`, `endswith`, `find`, `in`, `split` on text and bytes |
| `Text` | text.dfy | bytes, `str.encode()` (UTF-8), `str(n)` |
| `Base64` | base64.dfy | `b64encode`; `b64decode` as CPython's non-strict `binascii.a2b_base64` |
| `DataUrls` | data_urls.dfy | building and taking apart `data:image/...` URLs |
| `Multipart` | multipart.dfy | `parse_multipart` of python-bg-vercel/api/remove-background.py |
| `Http` | http.dfy | response bodies, status codes, the external services as function parameters |
| `ImageData` | image_data.dfy | the two ways `image_data` is classified |
| `ServiceApp` | service_app.dfy | python-bg-service/app.py endpoints |
| `ServiceMain` | service_main.dfy | python-bg-service/main.py endpoints |
| `VercelUpload` | vercel_upload.dfy | python-bg-vercel/api/remove-background.py `do_POST` |
| `VercelUrl` | vercel_url.dfy | python-bg-vercel/api/remove-background-url.py `do_POST` |
| `Variants` | handler_variants.dfy | where the URL endpoints differ, side by side |

External calls are function-typed parameters that return the bytes or the
text of what they raised: `rembg.remove` (`Remover`), `requests.get`
(`Getter`), `requests.post` (`Poster`), `urllib.request.urlopen(...).read()`
(`Opener`) and `json.loads` (`JsonParser`). Flask's `request.get_json()` is
an input of type `Result<Option<map>>` (raised, returned None, or returned an
object), and `request.files` is a map of uploads that werkzeug has already
parsed. Whether the rembg session exists (app.py) or the rembg module could
be imported (remove-background.py) is a boolean input.

Some facts about the code that the contracts make explicit:

- Each handler calls one engine. There is no loop that falls back from one
  backend to another.
- Multipart extraction takes the first piece, split on `--boundary`, that
  contains `filename=` and `Content-Type: image/` anywhere and has a blank
  line. It does not parse part headers.
- app.py never looks at the status of `requests.get`; an error page is
  handed to rembg like an image. main.py calls `raise_for_status`, which
  raises only for 400 to 599. In the serverless handlers urllib raises on
  every non-2xx status, and that is inside the `Opener` parameter.
- A data URL that fails to decode is a 500 in the Flask services. In the
  serverless handlers every outcome is status 200, and the body says which.

## Model

| member | source | states |
|---|---|---|
| Seqs.Split | python-bg-vercel/api/remove-background.py:108 | `split` on a non-empty separator always gives at least one piece; `SplitCutsLeftmost` states that each cut is at the leftmost occurrence, and `JoinSplit`, `SplitPiecesLackSeparator` and `SplitPiecesAreSlices` describe the pieces |
| Seqs.SplitCutsLeftmost | python-bg-vercel/api/remove-background.py:108 | every piece but the last ends where the leftmost occurrence of the separator begins: the separator's first occurrence in the piece followed by the separator is right after the piece, so overlapping candidates such as `aa` in `aaa` are cut at the first |
| Seqs.IndexOf | python-bg-vercel/api/remove-background.py:113 | `find` gives -1 exactly when the pattern occurs nowhere; otherwise the pattern occurs at the result and at no earlier index |
| Seqs.FirstMatch | python-bg-vercel/api/remove-background.py:110-119 | the scan over the pieces returns nothing exactly when no piece qualifies, and otherwise the index of a qualifying piece with none qualifying before it |
| Seqs.SplitLeadingPieces | python-bg-vercel/api/remove-background.py:103 | `split(...)[1]` exists exactly when the separator occurs; it is the text between the first occurrence and the next one (or the end) |
| Seqs.JoinSplit | python-bg-vercel/api/remove-background.py:108 | splitting the body on `--boundary` loses nothing: joining the pieces with the separator gives the body back |
| Seqs.SplitPiecesLackSeparator | python-bg-vercel/api/remove-background.py:108 | no piece of the split contains the separator |
| Seqs.SplitPiecesAreSlices | python-bg-vercel/api/remove-background.py:108 | every piece of the split is a contiguous run of the body |
| Text.NatToString | python-bg-vercel/api/remove-background-url.py:60 | the status in the API error text is written as decimal digits with no leading zero, and the digits denote the status |
| Base64.EncodeDigit | python-bg-service/app.py:149 | every encoded character is an alphabet character, never `=`, ASCII, and the decoder's table maps it back to its 6-bit value |
| Base64.Encode | python-bg-service/app.py:149 | the encoding of n bytes has 4 * ceil(n / 3) characters, each an alphabet character or `=` |
| Base64.Decode | python-bg-service/app.py:132 | a payload with a non-ASCII character is refused with Python's "string argument should contain only ASCII characters"; every other failure is "Incorrect padding" or the data-character-count message; the output is never longer than the text |
| Base64.RunExtends | python-bg-service/app.py:132 | the decoding loop (`Base64.Run`) only appends to its output, at most one byte per remaining character, and fails only with "Incorrect padding" or the data-character-count message |
| Base64.DecodeEncode | python-bg-service/app.py:131-150 | standard base64 round trip: decoding the encoding of any bytes gives back those bytes |
| DataUrls.PngDataUrl | python-bg-service/app.py:149-150 | a result URL starts with `data:image/`, is ASCII, and has the length of `data:image/png;base64,` plus 4 * ceil(n / 3) |
| DataUrls.DecodeDataUrl | python-bg-service/app.py:131-132 | a data URL without a comma fails the two-way unpacking with "not enough values to unpack (expected 2, got 1)" before any decoding |
| DataUrls.PayloadFollowsFirstComma | python-bg-service/app.py:131-132 | the decoded payload is exactly the text after the first comma; later commas stay in the payload |
| DataUrls.DataUrlPayload | python-bg-service/app.py:129-132 | for every comma-free header starting with `data:image/`, the URL `header,payload` is still read as a data URL and stands for the base64 decoding of `payload` |
| DataUrls.EncodedHasNoComma | python-bg-service/app.py:149 | base64 text never contains a comma, so the first comma of a result URL is the one after `base64` |
| DataUrls.PngDataUrlRoundTrip | python-bg-service/app.py:129-150 | a result data URL taken apart by the data-URL branch gives back exactly the bytes it was built from |
| Multipart.Unquote | python-bg-vercel/api/remove-background.py:104-105 | quotes are removed only when the boundary both starts and ends with `"`, and then exactly one from each end (a lone `"` becomes empty); otherwise the boundary is unchanged |
| Multipart.Boundary | python-bg-vercel/api/remove-background.py:103-105 | fails with "list index out of range" exactly when `boundary=` is absent; otherwise it is the unquoted text after the first `boundary=`, up to a second one or the end |
| Multipart.FileData | python-bg-vercel/api/remove-background.py:113-119 | the file body is the piece's bytes after its first blank line, less one trailing CRLF when there is one |
| Multipart.FileDataIsSlice | python-bg-vercel/api/remove-background.py:113-119 | the file body is a contiguous run of its piece |
| Multipart.ParseMultipart | python-bg-vercel/api/remove-background.py:99-124 | with no boundary the parse fails with the multipart prefix and "list index out of range"; otherwise it fails with the prefix and "No image file found in multipart data" exactly when no piece has `filename=`, `Content-Type: image/` and a blank line, and succeeds with the file body of the first piece that has all three (pieces with only the first two are skipped) |
| Multipart.ParseMultipartIsSlice | python-bg-vercel/api/remove-background.py:99-124 | the extracted image is a contiguous run of the request body |
| Http.Succeeded | python-bg-service/app.py:92-100 | a success body carries "Background removed successfully" and an image that is `data:image/png;base64,` plus the base64 of the output and decodes back to the output |
| Http.WithPrefix | python-bg-vercel/api/remove-background-url.py:47-52 | a stage that reports `f"{prefix}{str(e)}"` passes success through unchanged, and every error it reports starts with the prefix followed by exactly the original text |
| Http.FlaskReply | python-bg-service/app.py:144-164 | in the Flask services the reply is 200 exactly when the input was read and rembg succeeded; a failure at either step is a 500 with `success: false` and the raised text |
| ImageData.StrictRefinesLenient | python-bg-service/app.py:129-142 | app.py's three-way test agrees with the other handlers' two-way test wherever it accepts, and rejects exactly the non-data-URL strings not starting with `http` |
| ImageData.ResultIsInline | python-bg-service/app.py:129-131 | every handler reads a result data URL as inline data |
| ServiceApp.RemoveBackgroundFile | python-bg-service/app.py:60-107 | a missing session is a 500 before the upload is looked at; then a missing `image` field is a 400, checked before an empty filename, also a 400; 400 happens exactly for these two; a valid upload is answered as rembg's result on the uploaded bytes: 200 with the `data:image/png;base64,` image of its output, or 500 with its text |
| ServiceApp.LoadImage | python-bg-service/app.py:129-137 | a `data:image/` string is decoded as a data URL; any other accepted string starts with `http` and stands for the fetched content, whatever the status, or for what the fetch raised |
| ServiceApp.RemoveBackgroundUrl | python-bg-service/app.py:109-164 | a missing session is a 500 before the body is read; a `get_json` failure is a 500; a missing body or key is a 400 "No image_data provided"; the 400 "Invalid image_data format" occurs exactly for strings with neither prefix; any other `image_data` is answered as rembg's result on the bytes it stands for; a data URL with no comma is a 500 |
| ServiceApp.DataUrlReachesRembg | python-bg-service/app.py:129-157 | for every comma-free data-URL header, rembg runs on the base64 decoding of the text after the comma, and a decoding error is the 500 reply |
| ServiceApp.ResultFedBack | python-bg-service/app.py:129-157 | posting a success image back as `image_data` runs rembg on exactly the bytes the image was built from |
| ServiceApp.FetchStatusIgnored | python-bg-service/app.py:133-137 | the status of the fetched URL plays no part: fetches with the same content give the same reply |
| ServiceMain.RaiseForStatus | python-bg-service/main.py:96-98 | a fetch fails exactly when its status is 400 to 599, with a message that starts with the status; otherwise its content is the input |
| ServiceMain.RemoveBackground | python-bg-service/main.py:30-71 | a missing `image` field is a 400, checked before an empty filename, also a 400, both bare `{"error"}` bodies; 400 happens exactly for these two; a valid upload is answered as rembg's result on the uploaded bytes: 200 with the `data:image/png;base64,` image of its output, or 500 with its text |
| ServiceMain.LoadImage | python-bg-service/main.py:88-98 | a `data:image/` string is decoded as a data URL; anything else is fetched and stands for the content only when `raise_for_status` lets it through |
| ServiceMain.RemoveBackgroundUrl | python-bg-service/main.py:73-122 | a `get_json` failure is a 500; a missing body or key is a bare 400 "No image_data provided"; a present `image_data` never gets a 400 (no reject branch) and is answered as rembg's result on the bytes it stands for; a fetch answering 4xx or 5xx ends as a 500 with `success: false` |
| ServiceMain.DataUrlReachesRembg | python-bg-service/main.py:88-115 | for every comma-free data-URL header, rembg runs on the base64 decoding of the text after the comma, and a decoding error is the 500 reply |
| ServiceMain.ResultFedBack | python-bg-service/main.py:86-115 | posting a success image back as `image_data` runs rembg on exactly the bytes the image was built from |
| VercelUpload.KindOf | python-bg-vercel/api/remove-background.py:46-72 | the multipart route applies exactly when the Content-Type mentions `multipart/form-data`, whatever else it mentions; JSON applies exactly when it mentions `application/json` but not multipart; the raw-body route applies exactly when it mentions neither |
| VercelUpload.JsonInput | python-bg-vercel/api/remove-background.py:49-69 | every failure of the JSON branch carries "Failed to parse JSON: "; a parse failure keeps its text after the prefix; a `data:image/` value is decoded as a data URL and any other is opened as a URL, with failures prefixed; a data URL with no comma is the prefixed unpacking error; a missing `image_data` is opened as the URL "" |
| VercelUpload.ReadInput | python-bg-vercel/api/remove-background.py:46-72 | a Content-Type mentioning `multipart/form-data` is read by the multipart extractor; otherwise one mentioning `application/json` goes through the JSON branch; otherwise the body itself is the image |
| VercelUpload.DataUrlInput | python-bg-vercel/api/remove-background.py:53-69 | for every comma-free data-URL header, the JSON branch yields the base64 decoding of the text after the comma, with a failure prefixed |
| VercelUpload.Post | python-bg-vercel/api/remove-background.py:20-97 | the status is always 200; a Content-Length of 0 gives "No data provided" whatever the body, type or services; an input failure is reported before the rembg-availability check; a rembg failure is reported as its own text; success happens exactly when the input was read, rembg is present and it succeeded, and is then the body with "Background removed successfully" and `data:image/png;base64,` plus the base64 of rembg's output, which decodes back to that output |
| VercelUpload.RawBodyPassesThrough | python-bg-vercel/api/remove-background.py:70-79 | with any other content type the body reaches rembg unchanged |
| VercelUpload.MultipartRoute | python-bg-vercel/api/remove-background.py:46-48 | a multipart request fails with the extractor's prefixed error, or hands rembg exactly the extracted bytes |
| VercelUpload.ResultFedBack | python-bg-vercel/api/remove-background.py:49-58 | a success image posted back as JSON is read as exactly the bytes it was built from |
| VercelUrl.ReadInput | python-bg-vercel/api/remove-background-url.py:30-52 | every input-stage failure carries "Failed to process image data: ", a parse failure keeping its text after it; an absent or empty `image_data` is refused with "No image_data provided"; a `data:image/` value is decoded as a data URL and any other is opened as a URL, with failures prefixed |
| VercelUrl.DataUrlInput | python-bg-vercel/api/remove-background-url.py:30-52 | for every comma-free data-URL header, the input stage yields the base64 decoding of the text after the comma, with a failure prefixed |
| VercelUrl.Post | python-bg-vercel/api/remove-background-url.py:16-80 | the status is always 200; an input failure is the reply; a non-200 inference answer is "HuggingFace API error: <status>"; a raised `requests.post` is reported as its own text; success happens exactly when the input was read and the inference answered 200, and is then the body with "Background removed successfully" and `data:image/png;base64,` plus the base64 of the answer's content, which decodes back to that content |
| VercelUrl.InputFailureSkipsInference | python-bg-vercel/api/remove-background-url.py:47-57 | when the input stage fails the inference service is not consulted: the reply is the same whatever it would answer |
| VercelUrl.ApiErrorIsUnprefixed | python-bg-vercel/api/remove-background-url.py:59-60 | an inference error never carries the input-stage prefix |
| VercelUrl.ResultFedBack | python-bg-vercel/api/remove-background-url.py:37-40 | a success image posted back as `image_data` sends the inference service exactly the bytes it was built from |
| Variants.PlainStringHandling | python-bg-service/main.py:88-98 | a string with neither prefix is a 400 "Invalid image_data format" in app.py, while main.py fetches it as a URL |
| Variants.ErrorStatusHandling | python-bg-service/main.py:94-98 | for an `http` URL answering 4xx or 5xx, app.py runs rembg on the error page's bytes while main.py replies 500 with a message starting with the status |

## Left out

- rembg itself, `rembg.new_session`, PIL, the HTTP fetches and the inference POST: external code, taken as function parameters that return bytes or the raised text.
- JSON decoding: `json.loads` and Flask's `get_json` are parameters; a JSON object is a map from strings to strings, so `image_data` values that are not strings (which would raise on `.startswith`) are not modelled.
- Flask, werkzeug and `BaseHTTPRequestHandler` plumbing: routing, the parsing of `request.files`, CORS headers, the OPTIONS and GET handlers, `/health`, `/models`, logging, `app.run`.
- The parsing of the Content-Length header by `int(...)`: taken as its result or the text it raised.
- python-bg-vercel/api/models.py, services/background-removal/app.py and services/background-removal/run-local.py: a static list, a one-call wrapper and an installer script.
- Base64.Decode: follows the non-strict decoder of CPython 3.11 and later (pad handling and error messages); older CPython versions ended decoding on padding slightly differently.
- JSON bodies that are not objects. In app.py and main.py (python-bg-service/app.py:119-120, python-bg-service/main.py:81-83), `not data` answers 400 for `[]`, `0`, `""` and `false`, a non-empty list or string without the element or substring `image_data` answers the same 400 through the `in` test, one that has it reaches `data['image_data']` (python-bg-service/app.py:126, python-bg-service/main.py:86), which raises TypeError and gives a 500, and a non-zero number or `true` raises TypeError at the `in` test itself, also a 500. In the serverless handlers, `.get` on a non-object raises inside the input stage and is reported with that stage's prefix. `get_json()` is modelled as an error, None or a map from strings to strings, and `JsonParser` yields a map, so none of these cases can be expressed.
- Text.Utf8Encode: has no decoder as partner; its contract states only that ASCII text maps to its code points.

=== FILE: base64.dfy ===
/** Python's `base64.b64encode` and `base64.b64decode` (standard alphabet,
    section 4 of RFC 4648). The decoder follows CPython's `binascii.a2b_base64`
    with strict mode off, which is what `b64decode` uses unless `validate=True`
    is passed: characters outside the alphabet are skipped, and a run of pad
    characters that completes a quad ends decoding, ignoring whatever follows. */
module Base64 {
  import opened Results
  import opened Text

  const Pad: char := '='

  /** The alphabet character for the 6-bit value `v`. */
  function EncodeDigit(v: int): (c: char)
    requires 0 <= v < 64
    ensures c != Pad && c as int < 128
    ensures DigitValue(c) == v
  {
    if v < 26 then ('A' as int + v) as char
    else if v < 52 then ('a' as int + (v - 26)) as char
    else if v < 62 then ('0' as int + (v - 52)) as char
    else if v == 62 then '+'
    else '/'
  }

  /** The decoder's lookup table: the 6-bit value of an alphabet character,
      and -1 for every other character. */
  function DigitValue(c: char): (v: int)
    ensures -1 <= v < 64
    ensures v >= 0 ==> c != Pad && c as int < 128
  {
    if 'A' <= c <= 'Z' then c as int - 'A' as int
    else if 'a' <= c <= 'z' then c as int - 'a' as int + 26
    else if '0' <= c <= '9' then c as int - '0' as int + 52
    else if c == '+' then 62
    else if c == '/' then 63
    else -1
  }

  /** The four characters that encode three bytes. */
  function Quad(b0: byte, b1: byte, b2: byte): string {
    [EncodeDigit(b0 / 4), EncodeDigit(b0 % 4 * 16 + b1 / 16),
     EncodeDigit(b1 % 16 * 4 + b2 / 64), EncodeDigit(b2 % 64)]
  }

  /** `base64.b64encode(b).decode()` */
  function Encode(b: Bytes): (s: string)
    ensures |s| == (|b| + 2) / 3 * 4
    ensures forall i | 0 <= i < |s| :: DigitValue(s[i]) >= 0 || s[i] == Pad
    decreases |b|
  {
    if |b| == 0 then ""
    else if |b| == 1 then
      [EncodeDigit(b[0] / 4), EncodeDigit(b[0] % 4 * 16), Pad, Pad]
    else if |b| == 2 then
      [EncodeDigit(b[0] / 4), EncodeDigit(b[0] % 4 * 16 + b[1] / 16), EncodeDigit(b[1] % 16 * 4), Pad]
    else
      Quad(b[0], b[1], b[2]) + Encode(b[3..])
  }

  const NonAsciiError := "string argument should contain only ASCII characters"
  const PaddingError := "Incorrect padding"

  /** The message for input that ends one data character past a whole
      number of quads; `produced` is the number of bytes decoded so far. */
  function LengthError(produced: nat): string {
    "Invalid base64-encoded string: number of data characters ("
    + NatToString(produced / 3 * 4 + 1)
    + ") cannot be 1 more than a multiple of 4"
  }

  /** The decoder's state between characters: `pos` data characters of the
      current quad have been read, and `left` holds their bits not yet
      emitted as a byte. */
  predicate ValidState(pos: int, left: int) {
    && 0 <= pos <= 3 && 0 <= left
    && (pos == 0 ==> left == 0)
    && (pos == 1 ==> left < 64)
    && (pos == 2 ==> left < 16)
    && (pos == 3 ==> left < 4)
  }

  /** The decoding loop over the remaining characters `s`; `pads` counts the
      pad characters seen since the last data character once the quad has
      two data characters, and `out` is the output so far. Because `left`
      never has more bits than the byte being completed, the C code's
      shift-and-or is an addition here and never exceeds 255. */
  function Run(s: string, pos: int, left: int, pads: nat, out: Bytes): Result<Bytes>
    requires ValidState(pos, left)
    decreases |s|
  {
    if |s| == 0 then
      if pos == 0 then Ok(out)
      else if pos == 1 then Err(LengthError(|out|))
      else Err(PaddingError)
    else if s[0] == Pad then
      if pos >= 2 && pos + pads + 1 >= 4 then Ok(out)
      else Run(s[1..], pos, left, if pos >= 2 then pads + 1 else pads, out)
    else
      var v := DigitValue(s[0]);
      if v < 0 then Run(s[1..], pos, left, pads, out)
      else if pos == 0 then Run(s[1..], 1, v, 0, out)
      else if pos == 1 then Run(s[1..], 2, v % 16, 0, out + [left * 4 + v / 16])
      else if pos == 2 then Run(s[1..], 3, v % 4, 0, out + [left * 16 + v / 4])
      else Run(s[1..], 0, 0, 0, out + [left * 64 + v])
  }

  /** `base64.b64decode(s)` for a text argument. */
  function Decode(s: string): (r: Result<Bytes>)
    ensures !IsAscii(s) ==> r == Err(NonAsciiError)
    ensures r.Ok? ==> |r.value| <= |s|
    ensures r.Err? ==> r.error == NonAsciiError || r.error == PaddingError || exists n :: r.error == LengthError(n)
  {
    RunExtends(s, 0, 0, 0, []);
    if !IsAscii(s) then Err(NonAsciiError) else Run(s, 0, 0, 0, [])
  }

  /** The loop only appends to its output, at most one byte per remaining
      character, and fails only with the padding or the length message. */
  lemma {:induction false} RunExtends(s: string, pos: int, left: int, pads: nat, out: Bytes)
    requires ValidState(pos, left)
    ensures var r := Run(s, pos, left, pads, out);
      && (r.Ok? ==> |out| <= |r.value| <= |out| + |s| && r.value[..|out|] == out)
      && (r.Err? ==> r.error == PaddingError || exists n :: r.error == LengthError(n))
    decreases |s|
  {
    if |s| == 0 {
      if pos == 1 {
        assert Run(s, pos, left, pads, out).error == LengthError(|out|);
      }
    } else if s[0] == Pad {
      if !(pos >= 2 && pos + pads + 1 >= 4) {
        RunExtends(s[1..], pos, left, if pos >= 2 then pads + 1 else pads, out);
      }
    } else {
      var v := DigitValue(s[0]);
      if v < 0 {
        RunExtends(s[1..], pos, left, pads, out);
      } else if pos == 0 {
        RunExtends(s[1..], 1, v, 0, out);
      } else if pos == 1 {
        var next := out + [left * 4 + v / 16];
        RunExtends(s[1..], 2, v % 16, 0, next);
        assert next[..|out|] == out;
      } else if pos == 2 {
        var next := out + [left * 16 + v / 4];
        RunExtends(s[1..], 3, v % 4, 0, next);
        assert next[..|out|] == out;
      } else {
        var next := out + [left * 64 + v];
        RunExtends(s[1..], 0, 0, 0, next);
        assert next[..|out|] == out;
      }
    }
  }

  lemma QuadDecodes(b0: byte, b1: byte, b2: byte, rest: string, out: Bytes)
    ensures Run(Quad(b0, b1, b2) + rest, 0, 0, 0, out) == Run(rest, 0, 0, 0, out + [b0, b1, b2])
  {
    var x0, x1, x2, x3 := b0 / 4, b0 % 4 * 16 + b1 / 16, b1 % 16 * 4 + b2 / 64, b2 % 64;
    var s0 := Quad(b0, b1, b2) + rest;
    var s1 := [EncodeDigit(x1), EncodeDigit(x2), EncodeDigit(x3)] + rest;
    var s2 := [EncodeDigit(x2), EncodeDigit(x3)] + rest;
    var s3 := [EncodeDigit(x3)] + rest;
    assert s0[1..] == s1 && s1[1..] == s2 && s2[1..] == s3 && s3[1..] == rest;
    assert x0 * 4 + x1 / 16 == b0 && x1 % 16 == b1 / 16;
    assert b1 / 16 * 16 + x2 / 4 == b1 && x2 % 4 == b2 / 64;
    assert b2 / 64 * 64 + x3 == b2;
    calc {
      Run(s0, 0, 0, 0, out);
      Run(s1, 1, x0, 0, out);
      Run(s2, 2, b1 / 16, 0, out + [b0]);
      Run(s3, 3, b2 / 64, 0, out + [b0] + [b1]);
      Run(rest, 0, 0, 0, out + [b0] + [b1] + [b2]);
      { assert out + [b0] + [b1] + [b2] == out + [b0, b1, b2]; }
      Run(rest, 0, 0, 0, out + [b0, b1, b2]);
    }
  }

  lemma OneByteDecodes(b0: byte, out: Bytes)
    ensures Run([EncodeDigit(b0 / 4), EncodeDigit(b0 % 4 * 16), Pad, Pad], 0, 0, 0, out) == Ok(out + [b0])
  {
    var x0, x1 := b0 / 4, b0 % 4 * 16;
    var s0 := [EncodeDigit(x0), EncodeDigit(x1), Pad, Pad];
    var s1 := [EncodeDigit(x1), Pad, Pad];
    assert s0[1..] == s1 && s1[1..] == [Pad, Pad] && [Pad, Pad][1..] == [Pad];
    assert x0 * 4 + x1 / 16 == b0 && x1 % 16 == 0;
    calc {
      Run(s0, 0, 0, 0, out);
      Run(s1, 1, x0, 0, out);
      Run([Pad, Pad], 2, 0, 0, out + [b0]);
      Run([Pad], 2, 0, 1, out + [b0]);
      Ok(out + [b0]);
    }
  }

  lemma TwoBytesDecode(b0: byte, b1: byte, out: Bytes)
    ensures Run([EncodeDigit(b0 / 4), EncodeDigit(b0 % 4 * 16 + b1 / 16), EncodeDigit(b1 % 16 * 4), Pad], 0, 0, 0, out)
         == Ok(out + [b0, b1])
  {
    var x0, x1, x2 := b0 / 4, b0 % 4 * 16 + b1 / 16, b1 % 16 * 4;
    var s0 := [EncodeDigit(x0), EncodeDigit(x1), EncodeDigit(x2), Pad];
    var s1 := [EncodeDigit(x1), EncodeDigit(x2), Pad];
    var s2 := [EncodeDigit(x2), Pad];
    assert s0[1..] == s1 && s1[1..] == s2 && s2[1..] == [Pad];
    assert x0 * 4 + x1 / 16 == b0 && x1 % 16 == b1 / 16;
    assert b1 / 16 * 16 + x2 / 4 == b1 && x2 % 4 == 0;
    calc {
      Run(s0, 0, 0, 0, out);
      Run(s1, 1, x0, 0, out);
      Run(s2, 2, b1 / 16, 0, out + [b0]);
      Run([Pad], 3, 0, 0, out + [b0] + [b1]);
      Ok(out + [b0] + [b1]);
      { assert out + [b0] + [b1] == out + [b0, b1]; }
      Ok(out + [b0, b1]);
    }
  }

  /** Decoding an encoding appends exactly the encoded bytes to the output. */
  lemma {:induction false} RunEncoded(b: Bytes, out: Bytes)
    ensures Run(Encode(b), 0, 0, 0, out) == Ok(out + b)
    decreases |b|
  {
    if |b| == 0 {
      assert out + b == out;
    } else if |b| == 1 {
      OneByteDecodes(b[0], out);
      assert [b[0]] == b;
    } else if |b| == 2 {
      TwoBytesDecode(b[0], b[1], out);
      assert [b[0], b[1]] == b;
    } else {
      QuadDecodes(b[0], b[1], b[2], Encode(b[3..]), out);
      RunEncoded(b[3..], out + [b[0], b[1], b[2]]);
      assert out + [b[0], b[1], b[2]] + b[3..] == out + b;
    }
  }

  /** Round trip: `b64decode(b64encode(b)) == b` for every byte string. */
  lemma DecodeEncode(b: Bytes)
    ensures Decode(Encode(b)) == Ok(b)
  {
    RunEncoded(b, []);
    assert [] + b == b;
  }
}

=== FILE: data_urls.dfy ===
/** Data URLs (RFC 2397) as the handlers build and take them apart: a result
    is always `data:image/png;base64,<b64>`, and an incoming `image_data`
    starting with `data:image/` is cut at its first comma
    (`header, encoded = image_data.split(',', 1)`) and the remainder is
    handed to `base64.b64decode`. */
module DataUrls {
  import opened Results
  import opened Text
  import opened Seqs
  import Base64

  const ImagePrefix := "data:image/"
  const PngPrefix := "data:image/png;base64,"
  const Comma := ","

  /** What unpacking a one-element list into `header, encoded` raises. */
  const UnpackError := "not enough values to unpack (expected 2, got 1)"

  /** `f"data:image/png;base64,{base64.b64encode(out).decode('utf-8')}"` */
  function PngDataUrl(out: Bytes): (s: string)
    ensures StartsWith(s, ImagePrefix)
    ensures IsAscii(s)
    ensures |s| == |PngPrefix| + (|out| + 2) / 3 * 4
  {
    var b64 := Base64.Encode(out);
    var s := PngPrefix + b64;
    assert s[..|ImagePrefix|] == ImagePrefix;
    assert forall i | |PngPrefix| <= i < |s| :: s[i] == b64[i - |PngPrefix|];
    s
  }

  /** The `data:image/` branch: split at the first comma, then base64-decode
      the rest. A data URL without a comma fails before decoding. */
  function DecodeDataUrl(s: string): (r: Result<Bytes>)
    ensures !Contains(s, Comma) ==> r == Err(UnpackError)
  {
    var i := IndexOf(s, Comma);
    if i == -1 then Err(UnpackError) else Base64.Decode(s[i + 1..])
  }

  /** The payload is everything after the FIRST comma, later commas included. */
  lemma PayloadFollowsFirstComma(header: string, payload: string)
    requires !Contains(header, Comma)
    ensures DecodeDataUrl(header + Comma + payload) == Base64.Decode(payload)
  {
    var s := header + Comma + payload;
    assert OccursAt(s, Comma, |header|);
    assert forall i | 0 <= i < |header| :: OccursAt(s, Comma, i) ==> OccursAt(header, Comma, i);
    assert IndexOf(s, Comma) == |header|;
    assert s[|header| + 1..] == payload;
  }

  /** An incoming `data:image/...` URL: whatever its comma-free header, the
      bytes it stands for are the decoding of the text after that header's
      comma. */
  lemma DataUrlPayload(header: string, payload: string)
    requires StartsWith(header, ImagePrefix) && !Contains(header, Comma)
    ensures StartsWith(header + Comma + payload, ImagePrefix)
    ensures DecodeDataUrl(header + Comma + payload) == Base64.Decode(payload)
  {
    var s := header + Comma + payload;
    assert s[..|ImagePrefix|] == header[..|ImagePrefix|];
    PayloadFollowsFirstComma(header, payload);
  }

  lemma EncodedHasNoComma(out: Bytes)
    ensures !Contains(Base64.Encode(out), Comma)
  {
    var b64 := Base64.Encode(out);
    assert Base64.DigitValue(',') == -1;
    CommaFree(b64);
  }

  lemma CommaFree(s: string)
    requires forall i | 0 <= i < |s| :: s[i] != ','
    ensures !Contains(s, Comma)
  {
    assert forall i :: OccursAt(s, Comma, i) ==> s[i] == s[i..i + 1][0] == ',';
  }

  /** Round trip: a result data URL fed back as `image_data` decodes to the
      very bytes it was built from. */
  lemma PngDataUrlRoundTrip(out: Bytes)
    ensures DecodeDataUrl(PngDataUrl(out)) == Ok(out)
  {
    assert PngPrefix == "data:image/png;base64" + Comma;
    CommaFree("data:image/png;base64");
    PayloadFollowsFirstComma("data:image/png;base64", Base64.Encode(out));
    Base64.DecodeEncode(out);
  }
}

=== FILE: handler_variants.dfy ===
/** Where the near-duplicate URL endpoints part ways, stated side by side. */
module Variants {
  import opened Results
  import opened Seqs
  import opened Http
  import opened ImageData
  import DataUrls
  import ServiceApp
  import ServiceMain

  function Body(imageData: string): Result<Option<map<string, string>>> {
    Ok(Some(map["image_data" := imageData]))
  }

  /** A string that is neither a data URL nor starts with `http` is refused
      with 400 by python-bg-service/app.py, but python-bg-service/main.py
      fetches it like any URL. */
  lemma PlainStringHandling(imageData: string, get: Getter, remove: Remover)
    requires !StartsWith(imageData, DataUrls.ImagePrefix) && !StartsWith(imageData, HttpPrefix)
    ensures ServiceApp.RemoveBackgroundUrl(true, Body(imageData), get, remove)
         == Response(400, Failure(ServiceApp.InvalidFormat))
    ensures ServiceMain.RemoveBackgroundUrl(Body(imageData), get, remove)
         == FlaskReply(match get(imageData)
                       case Err(e) => Err(e)
                       case Ok(response) => ServiceMain.RaiseForStatus(response), remove)
  {
  }

  /** A URL that answers with an error status: app.py runs rembg on the
      error page it got back, main.py stops with a 500 naming the status. */
  lemma ErrorStatusHandling(url: string, get: Getter, remove: Remover)
    requires StartsWith(url, HttpPrefix)
    requires get(url).Ok? && 400 <= get(url).value.status < 600
    ensures ServiceApp.RemoveBackgroundUrl(true, Body(url), get, remove)
         == FlaskReply(Ok(get(url).value.content), remove)
    ensures var r := ServiceMain.RemoveBackgroundUrl(Body(url), get, remove);
      r.status == 500 && r.payload.Failure?
      && StartsWith(r.payload.error, Text.NatToString(get(url).value.status))
  {
    assert url[1] == url[..4][1] == 't';
    assert |url| < |DataUrls.ImagePrefix| || url[..|DataUrls.ImagePrefix|][1] == 't';
  }
}

=== FILE: http.dfy ===
/** What the handlers send back, and the external services they call, which
    this model takes as parameters rather than implementing. */
module Http {
  import opened Results
  import opened Text
  import opened Seqs
  import DataUrls
  import Base64

  /** A status code as `http.client` accepts it: three digits. */
  type StatusCode = s: int | 100 <= s <= 999 witness 200

  /** The JSON body of a response. */
  datatype Payload =
    /** `{"success": true, "image": ..., "message": ...}` */
    | Success(image: string, message: string)
    /** `{"success": false, "error": ...}` */
    | Failure(error: string)
    /** `{"error": ...}`: the 400 replies of python-bg-service/main.py carry
        no `success` field. */
    | BareError(error: string)

  datatype Response = Response(status: StatusCode, payload: Payload)

  /** A `requests` response: `status_code`, `reason`, final `url`, `content`. */
  datatype FetchResponse = FetchResponse(status: StatusCode, reason: string, url: string, content: Bytes)

  /** `rembg.remove(input)`: the processed image, or the text of what it raised. */
  type Remover = Bytes -> Result<Bytes>
  /** `requests.get(url)`: a response of any status, or what it raised. */
  type Getter = string -> Result<FetchResponse>
  /** `requests.post(url, data=body, timeout=30)` */
  type Poster = (string, Bytes) -> Result<FetchResponse>
  /** `urllib.request.urlopen(url).read()`; urllib itself raises on a non-2xx status. */
  type Opener = string -> Result<Bytes>
  /** `json.loads(body.decode())` when it yields an object of strings. */
  type JsonParser = Bytes -> Result<map<string, string>>

  /** A field of Flask's `request.files`: werkzeug has already parsed the upload. */
  datatype Upload = Upload(filename: string, content: Bytes)

  const SuccessMessage := "Background removed successfully"
  const NoImageFile := "No image file provided"
  const NoFileSelected := "No file selected"
  const NoImageData := "No image_data provided"

  /** A stage that reports whatever it raised as `f"{prefix}{str(e)}"`:
      success passes through, and an error gains the prefix. */
  function WithPrefix(prefix: string, loaded: Result<Bytes>): (r: Result<Bytes>)
    ensures r.Ok? <==> loaded.Ok?
    ensures loaded.Ok? ==> r == loaded
    ensures loaded.Err? ==> StartsWith(r.error, prefix) && r.error[|prefix|..] == loaded.error
  {
    match loaded
    case Ok(bytes) => Ok(bytes)
    case Err(e) =>
      assert (prefix + e)[..|prefix|] == prefix;
      assert (prefix + e)[|prefix|..] == e;
      Err(prefix + e)
  }

  /** The success body every handler builds from the processed bytes. Its
      image, fed back as `image_data`, decodes to exactly those bytes. */
  function Succeeded(out: Bytes): (p: Payload)
    ensures p.Success? && p.message == SuccessMessage
    ensures p.image == DataUrls.PngPrefix + Base64.Encode(out)
    ensures DataUrls.DecodeDataUrl(p.image) == Ok(out)
  {
    DataUrls.PngDataUrlRoundTrip(out);
    Success(DataUrls.PngDataUrl(out), SuccessMessage)
  }

  /** How both Flask services finish once the input bytes are known (or
      their loading raised): run rembg and reply 200 with the result, or 500
      with the text of whatever was raised. */
  function FlaskReply(input: Result<Bytes>, remove: Remover): (r: Response)
    ensures r.status == 200 <==> input.Ok? && remove(input.value).Ok?
    ensures r.status == 200 ==> r.payload == Succeeded(remove(input.value).value)
    ensures input.Err? ==> r == Response(500, Failure(input.error))
    ensures input.Ok? && remove(input.value).Err? ==> r == Response(500, Failure(remove(input.value).error))
  {
    match input
    case Err(e) => Response(500, Failure(e))
    case Ok(bytes) =>
      match remove(bytes)
      case Err(e) => Response(500, Failure(e))
      case Ok(out) => Response(200, Succeeded(out))
  }
}

=== FILE: image_data.dfy ===
/** How the handlers read a JSON `image_data` string. Every handler first
    asks whether it starts with `data:image/`; they differ on everything
    else. python-bg-service/app.py accepts only strings starting with `http`
    as URLs and rejects the rest, while python-bg-service/main.py and both
    Vercel handlers treat anything that is not a data URL as a URL to fetch. */
module ImageData {
  import opened Seqs
  import opened Text
  import DataUrls

  const HttpPrefix := "http"

  datatype Route = InlineData | RemoteUrl | Rejected

  /** The three-way test of python-bg-service/app.py. */
  function ClassifyStrict(imageData: string): Route {
    if StartsWith(imageData, DataUrls.ImagePrefix) then InlineData
    else if StartsWith(imageData, HttpPrefix) then RemoteUrl
    else Rejected
  }

  /** The two-way test of the other handlers. */
  function ClassifyLenient(imageData: string): Route {
    if StartsWith(imageData, DataUrls.ImagePrefix) then InlineData else RemoteUrl
  }

  /** The two tests agree wherever the strict one accepts, and the strict one
      rejects exactly the non-data-URL strings that do not start with `http`. */
  lemma StrictRefinesLenient(imageData: string)
    ensures ClassifyLenient(imageData) != Rejected
    ensures ClassifyStrict(imageData) != Rejected ==> ClassifyStrict(imageData) == ClassifyLenient(imageData)
    ensures ClassifyStrict(imageData) == Rejected <==>
      ClassifyLenient(imageData) == RemoteUrl && !StartsWith(imageData, HttpPrefix)
  {
  }

  /** A result data URL is read back as inline data by every handler. */
  lemma ResultIsInline(out: Bytes)
    ensures ClassifyStrict(DataUrls.PngDataUrl(out)) == InlineData
    ensures ClassifyLenient(DataUrls.PngDataUrl(out)) == InlineData
  {
  }
}

=== FILE: multipart.dfy ===
/** The simplified multipart/form-data extractor of the Vercel upload handler
    (`parse_multipart`). It is much looser than section 5.1.1 of RFC 2046 and
    RFC 7578: it takes the boundary from the Content-Type text after
    `boundary=`, splits the raw body on `--<boundary>`, and returns the body of
    the first piece that mentions `filename=` and `Content-Type: image/` and
    has a blank line. All checks are case-sensitive substring tests. */
module Multipart {
  import opened Results
  import opened Text
  import opened Seqs

  const BoundaryKey := "boundary="
  const Quote := "\""

  /** Every failure is re-raised with this prefix. */
  const FailurePrefix := "Failed to parse multipart data: "
  /** `content_type.split('boundary=')[1]` on a one-element list. */
  const IndexError := "list index out of range"
  const NoImageFound := "No image file found in multipart data"

  const FilenameMarker := Utf8Encode("filename=")
  const ImageTypeMarker := Utf8Encode("Content-Type: image/")
  const HeaderEnd := Utf8Encode("\r\n\r\n")
  const Crlf := Utf8Encode("\r\n")

  /** The boundary text before unquoting, defined without `split`: what
      follows the first `boundary=`, up to a second `boundary=` if any. */
  function RawBoundary(contentType: string): string
    requires Contains(contentType, BoundaryKey)
  {
    var rest := contentType[IndexOf(contentType, BoundaryKey) + |BoundaryKey|..];
    var j := IndexOf(rest, BoundaryKey);
    if j == -1 then rest else rest[..j]
  }

  /** `b.startswith('"') and b.endswith('"')` */
  predicate IsQuoted(b: string) {
    |b| >= 1 && b[0] == '"' && b[|b| - 1] == '"'
  }

  /** Surrounding double quotes are removed only when the text both starts
      and ends with one; a lone `"` becomes empty, as `'"'[1:-1]` does. */
  function Unquote(b: string): (r: string)
    ensures IsQuoted(b) && |b| >= 2 ==> Quote + r + Quote == b
    ensures b == Quote ==> r == ""
    ensures !IsQuoted(b) ==> r == b
  {
    if IsQuoted(b) then
      if |b| >= 2 then
        var r := b[1..|b| - 1];
        assert b == [b[0]] + r + [b[|b| - 1]];
        r
      else ""
    else b
  }

  /** `boundary = content_type.split('boundary=')[1]`, then unquoted. */
  function Boundary(contentType: string): (r: Result<string>)
    ensures r.Err? <==> !Contains(contentType, BoundaryKey)
    ensures r.Err? ==> r.error == IndexError
    ensures r.Ok? ==> r.value == Unquote(RawBoundary(contentType))
  {
    var pieces := Split(contentType, BoundaryKey);
    SplitLeadingPieces(contentType, BoundaryKey);
    if |pieces| < 2 then Err(IndexError) else Ok(Unquote(pieces[1]))
  }

  /** `f'--{boundary}'.encode()`: never empty, so `bytes.split` accepts it. */
  function Separator(boundary: string): (sep: Bytes)
    ensures |sep| >= 2
  {
    Utf8Encode("--" + boundary)
  }

  /** A piece that passes the two header tests of the loop. */
  predicate LooksLikeImage(part: Bytes) {
    Contains(part, FilenameMarker) && Contains(part, ImageTypeMarker)
  }

  /** A piece the loop returns from: it also has a blank line. */
  predicate HasFileData(part: Bytes) {
    LooksLikeImage(part) && Contains(part, HeaderEnd)
  }

  /** The bytes after the first blank line of a piece. */
  function AfterHeaders(part: Bytes): Bytes
    requires Contains(part, HeaderEnd)
  {
    part[IndexOf(part, HeaderEnd) + |HeaderEnd|..]
  }

  /** The file body of a piece: what follows its first blank line, with one
      trailing CRLF (the line break before the next boundary) removed. */
  function FileData(part: Bytes): (r: Bytes)
    requires Contains(part, HeaderEnd)
    ensures var body := AfterHeaders(part);
      if EndsWith(body, Crlf) then r + Crlf == body else r == body
  {
    var body := AfterHeaders(part);
    if EndsWith(body, Crlf) then
      var r := body[..|body| - |Crlf|];
      assert r + Crlf == body;
      r
    else body
  }

  /** The file body is a contiguous run of its piece. */
  lemma FileDataIsSlice(part: Bytes)
    requires Contains(part, HeaderEnd)
    ensures IsSliceOf(FileData(part), part)
  {
    var i := IndexOf(part, HeaderEnd) + |HeaderEnd|;
    var body := AfterHeaders(part);
    assert 0 <= i <= |part| && body == part[i..|part|];
    if EndsWith(body, Crlf) {
      assert FileData(part) == body[..|body| - |Crlf|];
      assert body[..|body| - |Crlf|] == part[i..|part| - |Crlf|];
    }
  }

  /** `parse_multipart(data, content_type)` */
  function ParseMultipart(data: Bytes, contentType: string): (r: Result<Bytes>)
    ensures Boundary(contentType).Err? ==> r == Err(FailurePrefix + IndexError)
    ensures Boundary(contentType).Ok? ==>
      var parts := Split(data, Separator(Boundary(contentType).value));
      && (r.Err? <==> NoMatch(parts, HasFileData))
      && (r.Err? ==> r.error == FailurePrefix + NoImageFound)
      && (r.Ok? ==> exists k :: IsFirstMatch(parts, HasFileData, k) && r.value == FileData(parts[k]))
  {
    match Boundary(contentType)
    case Err(e) => Err(FailurePrefix + e)
    case Ok(boundary) =>
      var parts := Split(data, Separator(boundary));
      match FirstMatch(parts, HasFileData)
      case None => Err(FailurePrefix + NoImageFound)
      case Some(k) => Ok(FileData(parts[k]))
  }

  /** Whatever the extractor returns is a contiguous run of the request body. */
  lemma ParseMultipartIsSlice(data: Bytes, contentType: string)
    ensures ParseMultipart(data, contentType).Ok? ==> IsSliceOf(ParseMultipart(data, contentType).value, data)
  {
    if ParseMultipart(data, contentType).Err? {
      return;
    }
    var boundary := Boundary(contentType).value;
    var parts := Split(data, Separator(boundary));
    var k := FirstMatch(parts, HasFileData).value;
    SplitPiecesAreSlices(data, Separator(boundary));
    FileDataIsSlice(parts[k]);
    SliceOfSlice(FileData(parts[k]), parts[k], data);
  }
}

=== FILE: results.dfy ===
/** The outcome of a step that the Python code either completes or aborts by
    raising an exception. The error carries the text that `str(e)` would give,
    because every handler copies that text into its JSON response. */
module Results {

  datatype Result<+T> = Ok(value: T) | Err(error: string)

  datatype Option<+T> = None | Some(value: T)
}

=== FILE: seqs.dfy ===
/** The handful of Python `str`/`bytes` operations the handlers rely on
    (`startswith`, `endswith`, `find`, `in`, `split`), stated once over
    sequences so that they serve both text and byte strings. All matching is
    exact and case-sensitive, as in Python. */
module Seqs {
  import opened Results

  /** `s.startswith(p)` */
  predicate StartsWith<T(==)>(s: seq<T>, p: seq<T>) {
    |p| <= |s| && s[..|p|] == p
  }

  /** `s.endswith(p)` */
  predicate EndsWith<T(==)>(s: seq<T>, p: seq<T>) {
    |p| <= |s| && s[|s| - |p|..] == p
  }

  /** `p` appears in `s` starting at index `i`. */
  predicate OccursAt<T(==)>(s: seq<T>, p: seq<T>, i: int) {
    0 <= i && i + |p| <= |s| && s[i..i + |p|] == p
  }

  /** `s.find(p)`: the first index at which `p` occurs, or -1. */
  function IndexOf<T(==)>(s: seq<T>, p: seq<T>): (r: int)
    ensures r == -1 || OccursAt(s, p, r)
    ensures r == -1 ==> forall i :: !OccursAt(s, p, i)
    ensures r != -1 ==> forall i :: 0 <= i < r ==> !OccursAt(s, p, i)
    decreases |s|
  {
    if |s| < |p| then -1
    else if s[..|p|] == p then 0
    else
      var k := IndexOf(s[1..], p);
      assert forall i :: 1 <= i ==> (OccursAt(s, p, i) <==> OccursAt(s[1..], p, i - 1));
      if k == -1 then -1 else k + 1
  }

  /** `p in s` */
  predicate Contains<T(==)>(s: seq<T>, p: seq<T>) {
    IndexOf(s, p) != -1
  }

  /** `s.split(sep)` for a non-empty separator: the pieces between the
      leftmost non-overlapping occurrences of `sep`, scanning left to right. */
  function Split<T(==)>(s: seq<T>, sep: seq<T>): (parts: seq<seq<T>>)
    requires |sep| > 0
    ensures |parts| >= 1
    decreases |s|
  {
    var i := IndexOf(s, sep);
    if i == -1 then [s] else [s[..i]] + Split(s[i + |sep|..], sep)
  }

  /** One step of a split: no separator leaves the text whole; otherwise the
      first piece is the text before the first separator. */
  lemma SplitStep<T>(s: seq<T>, sep: seq<T>)
    requires |sep| > 0
    ensures !Contains(s, sep) ==> Split(s, sep) == [s]
    ensures Contains(s, sep) ==>
      Split(s, sep) == [s[..IndexOf(s, sep)]] + Split(s[IndexOf(s, sep) + |sep|..], sep)
  {
  }

  /** The first two pieces of a split: the text before the first separator,
      and the text after it up to the next separator or the end. */
  lemma SplitLeadingPieces<T>(s: seq<T>, sep: seq<T>)
    requires |sep| > 0
    ensures !Contains(s, sep) <==> |Split(s, sep)| == 1
    ensures Contains(s, sep) ==>
      var rest := s[IndexOf(s, sep) + |sep|..];
      var j := IndexOf(rest, sep);
      && Split(s, sep)[0] == s[..IndexOf(s, sep)]
      && Split(s, sep)[1] == (if j == -1 then rest else rest[..j])
  {
    SplitStep(s, sep);
    if Contains(s, sep) {
      var rest := s[IndexOf(s, sep) + |sep|..];
      SplitStep(rest, sep);
    }
  }

  /** Every piece but the last ends where the leftmost occurrence of the
      separator begins: appending the separator to a piece puts its first
      occurrence right after the piece. */
  lemma {:induction false} SplitCutsLeftmost<T>(s: seq<T>, sep: seq<T>)
    requires |sep| > 0
    ensures var parts := Split(s, sep);
      forall k | 0 <= k < |parts| - 1 :: IndexOf(parts[k] + sep, sep) == |parts[k]|
    decreases |s|
  {
    SplitStep(s, sep);
    if Contains(s, sep) {
      var i := IndexOf(s, sep);
      var rest := s[i + |sep|..];
      SplitCutsLeftmost(rest, sep);
      FirstPieceCutsLeftmost(s, sep);
      CutsLeftmostCons(s[..i], Split(rest, sep), sep);
    }
  }

  lemma CutsLeftmostCons<T>(head: seq<T>, tail: seq<seq<T>>, sep: seq<T>)
    requires IndexOf(head + sep, sep) == |head|
    requires forall k | 0 <= k < |tail| - 1 :: IndexOf(tail[k] + sep, sep) == |tail[k]|
    ensures var parts := [head] + tail;
      forall k | 0 <= k < |parts| - 1 :: IndexOf(parts[k] + sep, sep) == |parts[k]|
  {
    var parts := [head] + tail;
    forall k | 1 <= k < |parts| - 1
      ensures IndexOf(parts[k] + sep, sep) == |parts[k]|
    {
      assert parts[k] == tail[k - 1];
    }
  }

  /** The text before the first occurrence, followed by the separator, has
      its first occurrence of the separator right after that text. */
  lemma FirstPieceCutsLeftmost<T>(s: seq<T>, sep: seq<T>)
    requires |sep| > 0 && Contains(s, sep)
    ensures IndexOf(s[..IndexOf(s, sep)] + sep, sep) == IndexOf(s, sep)
  {
    var i := IndexOf(s, sep);
    var t := s[..i] + sep;
    assert s[i..i + |sep|] == sep;
    assert t == s[..i + |sep|];
    assert OccursAt(t, sep, i);
    forall j | 0 <= j < i
      ensures OccursAt(t, sep, j) == OccursAt(s, sep, j)
    {
      assert t[j..j + |sep|] == s[j..j + |sep|];
    }
  }

  /** `sep.join(parts)` */
  function Join<T>(parts: seq<seq<T>>, sep: seq<T>): seq<T>
  {
    if |parts| == 0 then []
    else if |parts| == 1 then parts[0]
    else parts[0] + sep + Join(parts[1..], sep)
  }

  /** `xs[k]` is the first element satisfying `p`. */
  predicate IsFirstMatch<T>(xs: seq<T>, p: T -> bool, k: int) {
    && 0 <= k < |xs|
    && p(xs[k])
    && forall j | 0 <= j < k :: !p(xs[j])
  }

  /** No element satisfies `p`. */
  predicate NoMatch<T>(xs: seq<T>, p: T -> bool) {
    forall j | 0 <= j < |xs| :: !p(xs[j])
  }

  /** A left-to-right scan that stops at the first element satisfying `p`. */
  function FirstMatch<T>(xs: seq<T>, p: T -> bool): (k: Option<nat>)
    ensures k.None? <==> NoMatch(xs, p)
    ensures k.Some? ==> IsFirstMatch(xs, p, k.value)
  {
    if |xs| == 0 then None
    else if p(xs[0]) then Some(0)
    else
      match FirstMatch(xs[1..], p)
      case None =>
        assert forall j | 1 <= j < |xs| :: xs[j] == xs[1..][j - 1];
        None
      case Some(k) =>
        assert forall j | 1 <= j <= k + 1 :: xs[j] == xs[1..][j - 1];
        Some(k + 1)
  }

  /** `p` is a contiguous run of `s`. */
  ghost predicate IsSliceOf<T>(p: seq<T>, s: seq<T>) {
    exists i, j :: 0 <= i <= j <= |s| && s[i..j] == p
  }

  /** Splitting loses nothing: joining the pieces back restores the input. */
  lemma {:induction false} JoinSplit<T>(s: seq<T>, sep: seq<T>)
    requires |sep| > 0
    ensures Join(Split(s, sep), sep) == s
    decreases |s|
  {
    if Contains(s, sep) {
      var i := IndexOf(s, sep);
      var rest := s[i + |sep|..];
      JoinSplit(rest, sep);
      JoinSplitStep(s, sep);
      Reassemble(s, i, i + |sep|);
    } else {
      SplitStep(s, sep);
    }
  }

  /** Joining a split whose input holds the separator: the text before the
      first separator, the separator, then the join of the rest's pieces. */
  lemma JoinSplitStep<T>(s: seq<T>, sep: seq<T>)
    requires |sep| > 0 && Contains(s, sep)
    ensures var i := IndexOf(s, sep);
      && s[i..i + |sep|] == sep
      && Join(Split(s, sep), sep) == s[..i] + sep + Join(Split(s[i + |sep|..], sep), sep)
  {
    SplitStep(s, sep);
    JoinCons(s[..IndexOf(s, sep)], Split(s[IndexOf(s, sep) + |sep|..], sep), sep);
  }

  lemma Reassemble<T>(s: seq<T>, a: int, b: int)
    requires 0 <= a <= b <= |s|
    ensures s[..a] + s[a..b] + s[b..] == s
  {
    assert s[..a] + s[a..b] == s[..b];
  }

  lemma JoinCons<T>(head: seq<T>, tail: seq<seq<T>>, sep: seq<T>)
    requires |tail| >= 1
    ensures Join([head] + tail, sep) == head + sep + Join(tail, sep)
  {
    assert ([head] + tail)[1..] == tail;
  }

  /** No piece of a split contains the separator. */
  lemma {:induction false} SplitPiecesLackSeparator<T>(s: seq<T>, sep: seq<T>)
    requires |sep| > 0
    ensures forall k :: 0 <= k < |Split(s, sep)| ==> !Contains(Split(s, sep)[k], sep)
    decreases |s|
  {
    var i := IndexOf(s, sep);
    if i != -1 {
      var rest := s[i + |sep|..];
      SplitPiecesLackSeparator(rest, sep);
      var head := s[..i];
      forall j | OccursAt(head, sep, j)
        ensures false
      {
        assert s[j..j + |sep|] == head[j..j + |sep|];
        assert OccursAt(s, sep, j);
      }
      assert !Contains(head, sep);
    }
  }

  lemma SliceOfSlice<T>(p: seq<T>, q: seq<T>, s: seq<T>)
    requires IsSliceOf(p, q) && IsSliceOf(q, s)
    ensures IsSliceOf(p, s)
  {
    var i, j :| 0 <= i <= j <= |q| && q[i..j] == p;
    var a, b :| 0 <= a <= b <= |s| && s[a..b] == q;
    forall k | 0 <= k < j - i
      ensures s[a + i..a + j][k] == p[k]
    {
      assert p[k] == q[i + k] == s[a + i + k];
    }
    assert s[a + i..a + j] == p;
  }

  /** Every piece of a split is a contiguous run of the input. */
  lemma {:induction false} SplitPiecesAreSlices<T>(s: seq<T>, sep: seq<T>)
    requires |sep| > 0
    ensures forall k :: 0 <= k < |Split(s, sep)| ==> IsSliceOf(Split(s, sep)[k], s)
    decreases |s|
  {
    var i := IndexOf(s, sep);
    if i == -1 {
      assert s[0..|s|] == s;
    } else {
      var rest := s[i + |sep|..];
      SplitPiecesAreSlices(rest, sep);
      var parts := Split(s, sep);
      var tail := Split(rest, sep);
      assert parts == [s[..i]] + tail;
      assert s[0..i] == s[..i];
      assert s[i + |sep|..|s|] == rest;
      assert IsSliceOf(rest, s);
      forall k | 0 <= k < |parts|
        ensures IsSliceOf(parts[k], s)
      {
        if k > 0 {
          assert parts[k] == tail[k - 1];
          SliceOfSlice(parts[k], rest, s);
        }
      }
    }
  }
}

=== FILE: service_app.dfy ===
/** The Flask service of python-bg-service/app.py: a file-upload endpoint and
    a data-URL-or-URL endpoint, both guarded by a rembg session that is
    created at start-up and may be missing. Replies are JSON with
    `success: false` on every error; the status is 500 for a missing session
    and for anything raised while processing, 400 for bad input. */
module ServiceApp {
  import opened Results
  import opened Text
  import opened Seqs
  import opened Http
  import opened ImageData
  import DataUrls
  import Base64

  const NotInitialized := "rembg session not initialized"
  const InvalidFormat := "Invalid image_data format"

  /** `remove_background_file` (POST /remove-background). */
  function RemoveBackgroundFile(sessionReady: bool, files: map<string, Upload>, remove: Remover): (r: Response)
    ensures !sessionReady ==> r == Response(500, Failure(NotInitialized))
    ensures sessionReady && "image" !in files ==> r == Response(400, Failure(NoImageFile))
    ensures sessionReady && "image" in files && files["image"].filename == "" ==>
      r == Response(400, Failure(NoFileSelected))
    ensures sessionReady && "image" in files && files["image"].filename != "" ==>
      r == FlaskReply(Ok(files["image"].content), remove)
    ensures r.status == 400 <==> sessionReady && ("image" !in files || files["image"].filename == "")
    ensures r.payload.Success? <==> r.status == 200
    ensures r.payload.Success? ==>
      sessionReady && "image" in files && files["image"].filename != ""
      && DataUrls.DecodeDataUrl(r.payload.image) == remove(files["image"].content)
    ensures sessionReady && "image" in files && files["image"].filename != "" && remove(files["image"].content).Err? ==>
      r == Response(500, Failure(remove(files["image"].content).error))
    ensures r.payload.Failure? || r.payload.Success?
  {
    if !sessionReady then Response(500, Failure(NotInitialized))
    else if "image" !in files then Response(400, Failure(NoImageFile))
    else if files["image"].filename == "" then Response(400, Failure(NoFileSelected))
    else FlaskReply(Ok(files["image"].content), remove)
  }

  /** The bytes an accepted `image_data` stands for. The response to
      `requests.get` is used whatever its status: this endpoint never checks it. */
  function LoadImage(imageData: string, get: Getter): (r: Result<Bytes>)
    requires ClassifyStrict(imageData) != Rejected
    ensures StartsWith(imageData, DataUrls.ImagePrefix) ==> r == DataUrls.DecodeDataUrl(imageData)
    ensures !StartsWith(imageData, DataUrls.ImagePrefix) ==>
      StartsWith(imageData, HttpPrefix)
      && r == (match get(imageData) case Ok(response) => Ok(response.content) case Err(e) => Err(e))
  {
    if ClassifyStrict(imageData) == InlineData then DataUrls.DecodeDataUrl(imageData)
    else
      match get(imageData)
      case Err(e) => Err(e)
      case Ok(response) => Ok(response.content)
  }

  /** `remove_background_url` (POST /remove-background-url). `body` is what
      `request.get_json()` gave: an object, None, or the error it raised. */
  function RemoveBackgroundUrl(sessionReady: bool, body: Result<Option<map<string, string>>>,
                               get: Getter, remove: Remover): (r: Response)
    ensures !sessionReady ==> r == Response(500, Failure(NotInitialized))
    ensures sessionReady && body.Err? ==> r == Response(500, Failure(body.error))
    ensures sessionReady && body.Ok? && (body.value.None? || "image_data" !in body.value.value) ==>
      r == Response(400, Failure(NoImageData))
    ensures sessionReady && body.Ok? && body.value.Some? && "image_data" in body.value.value ==>
      var imageData := body.value.value["image_data"];
      && (r == Response(400, Failure(InvalidFormat)) <==>
            !StartsWith(imageData, DataUrls.ImagePrefix) && !StartsWith(imageData, HttpPrefix))
      && (StartsWith(imageData, DataUrls.ImagePrefix) && !Contains(imageData, DataUrls.Comma) ==>
            r == Response(500, Failure(DataUrls.UnpackError)))
      && (ClassifyStrict(imageData) != Rejected ==> r == FlaskReply(LoadImage(imageData, get), remove))
    ensures r.payload.Success? <==> r.status == 200
    ensures r.payload.Failure? || r.payload.Success?
  {
    if !sessionReady then Response(500, Failure(NotInitialized))
    else
      match body
      case Err(e) => Response(500, Failure(e))
      case Ok(data) =>
        if data.None? || "image_data" !in data.value then Response(400, Failure(NoImageData))
        else
          var imageData := data.value["image_data"];
          if ClassifyStrict(imageData) == Rejected then Response(400, Failure(InvalidFormat))
          else FlaskReply(LoadImage(imageData, get), remove)
  }

  /** A success reply's image, posted back as `image_data`, hands rembg
      exactly the bytes that reply was built from. */
  lemma ResultFedBack(out: Bytes, get: Getter, remove: Remover)
    ensures RemoveBackgroundUrl(true, Ok(Some(map["image_data" := Succeeded(out).image])), get, remove)
         == FlaskReply(Ok(out), remove)
  {
    ResultIsInline(out);
  }

  /** A data URL reaches rembg as the base64 decoding of everything after
      its header's comma, for every comma-free header. */
  lemma DataUrlReachesRembg(header: string, payload: string, get: Getter, remove: Remover)
    requires StartsWith(header, DataUrls.ImagePrefix) && !Contains(header, DataUrls.Comma)
    ensures RemoveBackgroundUrl(true, Ok(Some(map["image_data" := header + DataUrls.Comma + payload])), get, remove)
         == FlaskReply(Base64.Decode(payload), remove)
  {
    DataUrls.DataUrlPayload(header, payload);
  }

  /** The status of a fetched URL is ignored: two fetches that return the
      same content give the same reply, even if one is a 404. */
  lemma FetchStatusIgnored(sessionReady: bool, imageData: string, get1: Getter, get2: Getter, remove: Remover)
    requires ClassifyStrict(imageData) == RemoteUrl
    requires get1(imageData).Ok? && get2(imageData).Ok?
    requires get1(imageData).value.content == get2(imageData).value.content
    ensures RemoveBackgroundUrl(sessionReady, Ok(Some(map["image_data" := imageData])), get1, remove)
         == RemoveBackgroundUrl(sessionReady, Ok(Some(map["image_data" := imageData])), get2, remove)
  {
  }
}

=== FILE: service_main.dfy ===
/** The Flask service of python-bg-service/main.py. Its rembg session is
    created at import time, so there is no session check; its 400 replies are
    `{"error": ...}` without a `success` field; every `image_data` that is not
    a data URL is fetched, and the fetch goes through `raise_for_status`. */
module ServiceMain {
  import opened Results
  import opened Text
  import opened Seqs
  import opened Http
  import opened ImageData
  import DataUrls
  import Base64

  /** `response.raise_for_status()` of `requests`: only 4xx and 5xx raise,
      with a message naming the status, the reason and the final URL. */
  function RaiseForStatus(response: FetchResponse): (r: Result<Bytes>)
    ensures r.Ok? <==> !(400 <= response.status < 600)
    ensures r.Ok? ==> r.value == response.content
    ensures r.Err? ==> StartsWith(r.error, NatToString(response.status))
  {
    var kind :=
      if 400 <= response.status < 500 then " Client Error: "
      else if 500 <= response.status < 600 then " Server Error: "
      else "";
    if kind == "" then Ok(response.content)
    else
      var message := NatToString(response.status) + kind + response.reason + " for url: " + response.url;
      assert message[..|NatToString(response.status)|] == NatToString(response.status);
      Err(message)
  }

  /** `remove_background` (POST /remove-background). */
  function RemoveBackground(files: map<string, Upload>, remove: Remover): (r: Response)
    ensures "image" !in files ==> r == Response(400, BareError(NoImageFile))
    ensures "image" in files && files["image"].filename == "" ==> r == Response(400, BareError(NoFileSelected))
    ensures "image" in files && files["image"].filename != "" ==> r == FlaskReply(Ok(files["image"].content), remove)
    ensures r.status == 400 <==> "image" !in files || files["image"].filename == ""
    ensures r.payload.Success? <==> r.status == 200
    ensures r.payload.Success? ==>
      "image" in files && files["image"].filename != ""
      && DataUrls.DecodeDataUrl(r.payload.image) == remove(files["image"].content)
    ensures r.payload.BareError? <==> r.status == 400
  {
    if "image" !in files then Response(400, BareError(NoImageFile))
    else if files["image"].filename == "" then Response(400, BareError(NoFileSelected))
    else FlaskReply(Ok(files["image"].content), remove)
  }

  /** The bytes an `image_data` stands for: a data URL is decoded, anything
      else is fetched and must not come back with a 4xx or 5xx status. */
  function LoadImage(imageData: string, get: Getter): (r: Result<Bytes>)
    ensures StartsWith(imageData, DataUrls.ImagePrefix) ==> r == DataUrls.DecodeDataUrl(imageData)
    ensures !StartsWith(imageData, DataUrls.ImagePrefix) ==>
      r == (match get(imageData) case Ok(response) => RaiseForStatus(response) case Err(e) => Err(e))
  {
    if ClassifyLenient(imageData) == InlineData then DataUrls.DecodeDataUrl(imageData)
    else
      match get(imageData)
      case Err(e) => Err(e)
      case Ok(response) => RaiseForStatus(response)
  }

  /** `remove_background_url` (POST /remove-background-url). */
  function RemoveBackgroundUrl(body: Result<Option<map<string, string>>>, get: Getter, remove: Remover): (r: Response)
    ensures body.Err? ==> r == Response(500, Failure(body.error))
    ensures body.Ok? && (body.value.None? || "image_data" !in body.value.value) ==>
      r == Response(400, BareError(NoImageData))
    ensures body.Ok? && body.value.Some? && "image_data" in body.value.value ==>
      var imageData := body.value.value["image_data"];
      && r.status != 400
      && ((!StartsWith(imageData, DataUrls.ImagePrefix) && get(imageData).Ok?
           && 400 <= get(imageData).value.status < 600) ==> r.status == 500 && r.payload.Failure?)
      && r == FlaskReply(LoadImage(imageData, get), remove)
    ensures r.payload.Success? <==> r.status == 200
  {
    match body
    case Err(e) => Response(500, Failure(e))
    case Ok(data) =>
      if data.None? || "image_data" !in data.value then Response(400, BareError(NoImageData))
      else FlaskReply(LoadImage(data.value["image_data"], get), remove)
  }

  /** A data URL reaches rembg as the base64 decoding of everything after
      its header's comma, for every comma-free header. */
  lemma DataUrlReachesRembg(header: string, payload: string, get: Getter, remove: Remover)
    requires StartsWith(header, DataUrls.ImagePrefix) && !Contains(header, DataUrls.Comma)
    ensures RemoveBackgroundUrl(Ok(Some(map["image_data" := header + DataUrls.Comma + payload])), get, remove)
         == FlaskReply(Base64.Decode(payload), remove)
  {
    DataUrls.DataUrlPayload(header, payload);
  }

  /** A success reply's image, posted back as `image_data`, hands rembg
      exactly the bytes that reply was built from. */
  lemma ResultFedBack(out: Bytes, get: Getter, remove: Remover)
    ensures RemoveBackgroundUrl(Ok(Some(map["image_data" := Succeeded(out).image])), get, remove)
         == FlaskReply(Ok(out), remove)
  {
    ResultIsInline(out);
  }
}

=== FILE: text.dfy ===
/** Bytes, and the two Python conversions between text and bytes the
    handlers use: `str.encode()` (UTF-8) and `str(n)` for a status code. */
module Text {

  type byte = b: int | 0 <= b < 256
  type Bytes = seq<byte>

  predicate IsAscii(s: string) {
    forall i | 0 <= i < |s| :: s[i] as int < 128
  }

  /** UTF-8 encoding of one Unicode scalar value. */
  function Utf8Char(c: char): (r: Bytes)
    ensures 1 <= |r| <= 4
    ensures c as int < 128 <==> |r| == 1
    ensures c as int < 128 ==> r[0] == c as int
  {
    var n := c as int;
    if n < 0x80 then [n]
    else if n < 0x800 then [0xC0 + n / 0x40, 0x80 + n % 0x40]
    else if n < 0x1_0000 then [0xE0 + n / 0x1000, 0x80 + (n / 0x40) % 0x40, 0x80 + n % 0x40]
    else [0xF0 + n / 0x4_0000, 0x80 + (n / 0x1000) % 0x40, 0x80 + (n / 0x40) % 0x40, 0x80 + n % 0x40]
  }

  /** `s.encode()`: Python encodes text as UTF-8 by default. On ASCII text
      this is the identity on code points. */
  function Utf8Encode(s: string): (r: Bytes)
    ensures |r| >= |s|
    ensures IsAscii(s) ==> |r| == |s| && forall i | 0 <= i < |s| :: r[i] == s[i] as int
  {
    if |s| == 0 then [] else Utf8Char(s[0]) + Utf8Encode(s[1..])
  }

  function DigitChar(d: int): (c: char)
    requires 0 <= d < 10
    ensures '0' <= c <= '9'
  {
    ('0' as int + d) as char
  }

  /** The number a string of decimal digits denotes. */
  function DecimalValue(s: string): nat
    requires forall i | 0 <= i < |s| :: '0' <= s[i] <= '9'
  {
    if |s| == 0 then 0 else DecimalValue(s[..|s| - 1]) * 10 + (s[|s| - 1] as int - '0' as int)
  }

  /** `str(n)` for a non-negative integer: its decimal digits, without
      leading zeros. */
  function NatToString(n: nat): (s: string)
    ensures |s| >= 1
    ensures forall i | 0 <= i < |s| :: '0' <= s[i] <= '9'
    ensures s[0] == '0' ==> n == 0
    ensures DecimalValue(s) == n
  {
    if n < 10 then [DigitChar(n)]
    else
      var s := NatToString(n / 10) + [DigitChar(n % 10)];
      assert s[..|s| - 1] == NatToString(n / 10);
      s
  }
}

=== FILE: vercel_upload.dfy ===
/** The serverless handler of python-bg-vercel/api/remove-background.py. It
    sends status 200 and its headers before looking at the request, so every
    outcome, good or bad, is a 200 whose JSON body says which. The body is
    routed on the Content-Type header: multipart first, then JSON, and any
    other type is taken as the raw image. */
module VercelUpload {
  import opened Results
  import opened Text
  import opened Seqs
  import opened Http
  import opened ImageData
  import DataUrls
  import Base64
  import Multipart

  /** A POST as the handler sees it. `contentLength` is
      `int(headers.get('Content-Length', 0))`, or the error `int` raised;
      `body` is what was read from the socket. */
  datatype Request = Request(contentLength: Result<int>, contentType: string, body: Bytes)

  const NoData := "No data provided"
  const JsonFailurePrefix := "Failed to parse JSON: "
  const RembgMissing := "rembg library not available"
  const MultipartType := "multipart/form-data"
  const JsonType := "application/json"

  datatype BodyKind = MultipartBody | JsonBody | RawBody

  /** The Content-Type routing: substring tests, multipart checked first. */
  function KindOf(contentType: string): (k: BodyKind)
    ensures k == MultipartBody <==> Contains(contentType, MultipartType)
    ensures k == RawBody <==> !Contains(contentType, MultipartType) && !Contains(contentType, JsonType)
    ensures k == JsonBody <==> !Contains(contentType, MultipartType) && Contains(contentType, JsonType)
  {
    if Contains(contentType, MultipartType) then MultipartBody
    else if Contains(contentType, JsonType) then JsonBody
    else RawBody
  }

  /** The JSON branch: a missing `image_data` is the empty string, which is
      then opened as a URL; every failure in it carries the JSON prefix. */
  function JsonInput(body: Bytes, parseJson: JsonParser, open: Opener): (r: Result<Bytes>)
    ensures r.Err? ==> StartsWith(r.error, JsonFailurePrefix)
    ensures parseJson(body).Err? ==> r == Err(JsonFailurePrefix + parseJson(body).error)
    ensures parseJson(body).Ok? && "image_data" in parseJson(body).value ==>
      var imageData := parseJson(body).value["image_data"];
      && r == WithPrefix(JsonFailurePrefix,
                         if StartsWith(imageData, DataUrls.ImagePrefix) then DataUrls.DecodeDataUrl(imageData)
                         else open(imageData))
      && (StartsWith(imageData, DataUrls.ImagePrefix) && !Contains(imageData, DataUrls.Comma) ==>
            r == Err(JsonFailurePrefix + DataUrls.UnpackError))
    ensures parseJson(body).Ok? && "image_data" !in parseJson(body).value ==>
      r == (if open("").Ok? then open("") else Err(JsonFailurePrefix + open("").error))
  {
    var loaded :=
      match parseJson(body)
      case Err(e) => Err(e)
      case Ok(fields) =>
        var imageData := if "image_data" in fields then fields["image_data"] else "";
        if ClassifyLenient(imageData) == InlineData then DataUrls.DecodeDataUrl(imageData)
        else open(imageData);
    WithPrefix(JsonFailurePrefix, loaded)
  }

  /** The image bytes the request carries, routed on substrings of the
      Content-Type: multipart wins over JSON, and any other type is the raw
      image. */
  function ReadInput(request: Request, parseJson: JsonParser, open: Opener): (r: Result<Bytes>)
    ensures Contains(request.contentType, MultipartType) ==>
      r == Multipart.ParseMultipart(request.body, request.contentType)
    ensures !Contains(request.contentType, MultipartType) && Contains(request.contentType, JsonType) ==>
      r == JsonInput(request.body, parseJson, open)
    ensures !Contains(request.contentType, MultipartType) && !Contains(request.contentType, JsonType) ==>
      r == Ok(request.body)
  {
    match KindOf(request.contentType)
    case MultipartBody => Multipart.ParseMultipart(request.body, request.contentType)
    case JsonBody => JsonInput(request.body, parseJson, open)
    case RawBody => Ok(request.body)
  }

  /** `do_POST`. */
  function Post(request: Request, rembgAvailable: bool, parseJson: JsonParser, open: Opener, remove: Remover)
    : (r: Response)
    ensures r.status == 200
    ensures request.contentLength.Err? ==> r.payload == Failure(request.contentLength.error)
    ensures request.contentLength == Ok(0) ==> r.payload == Failure(NoData)
    ensures request.contentLength.Ok? && request.contentLength.value != 0 ==>
      var input := ReadInput(request, parseJson, open);
      && (input.Err? ==> r.payload == Failure(input.error))
      && (input.Ok? && !rembgAvailable ==> r.payload == Failure(RembgMissing))
      && (r.payload.Success? <==> input.Ok? && rembgAvailable && remove(input.value).Ok?)
      && (input.Ok? && rembgAvailable && remove(input.value).Err? ==>
            r.payload == Failure(remove(input.value).error))
      && (r.payload.Success? ==> r.payload == Succeeded(remove(input.value).value))
      && (r.payload.Success? ==> DataUrls.DecodeDataUrl(r.payload.image) == remove(input.value))
    ensures !r.payload.BareError?
  {
    match request.contentLength
    case Err(e) => Response(200, Failure(e))
    case Ok(length) =>
      if length == 0 then Response(200, Failure(NoData))
      else
        match ReadInput(request, parseJson, open)
        case Err(e) => Response(200, Failure(e))
        case Ok(input) =>
          if !rembgAvailable then Response(200, Failure(RembgMissing))
          else
            match remove(input)
            case Err(e) => Response(200, Failure(e))
            case Ok(out) => Response(200, Succeeded(out))
  }

  /** Any content type that mentions neither multipart nor JSON hands the
      body to rembg unchanged. */
  lemma RawBodyPassesThrough(request: Request, parseJson: JsonParser, open: Opener, remove: Remover)
    requires request.contentLength.Ok? && request.contentLength.value != 0
    requires !Contains(request.contentType, MultipartType) && !Contains(request.contentType, JsonType)
    ensures Post(request, true, parseJson, open, remove)
         == match remove(request.body)
            case Err(e) => Response(200, Failure(e))
            case Ok(out) => Response(200, Succeeded(out))
  {
  }

  /** A multipart upload reaches rembg as the extractor's bytes, and a
      failed extraction is reported with the multipart prefix, whatever else
      the Content-Type mentions. */
  lemma MultipartRoute(request: Request, parseJson: JsonParser, open: Opener, remove: Remover)
    requires request.contentLength.Ok? && request.contentLength.value != 0
    requires Contains(request.contentType, MultipartType)
    ensures var parsed := Multipart.ParseMultipart(request.body, request.contentType);
      && (parsed.Err? ==> Post(request, true, parseJson, open, remove).payload == Failure(parsed.error)
                          && StartsWith(parsed.error, Multipart.FailurePrefix))
      && (parsed.Ok? && remove(parsed.value).Ok? ==>
            Post(request, true, parseJson, open, remove).payload == Succeeded(remove(parsed.value).value))
  {
    var parsed := Multipart.ParseMultipart(request.body, request.contentType);
    if parsed.Err? {
      var p := Multipart.FailurePrefix;
      assert parsed.error == p + Multipart.IndexError || parsed.error == p + Multipart.NoImageFound;
      assert parsed.error[..|p|] == p;
    }
  }

  /** A data URL in a JSON body reaches rembg as the base64 decoding of
      everything after its header's comma, for every comma-free header; a
      decoding failure carries the JSON prefix. */
  lemma DataUrlInput(body: Bytes, header: string, payload: string, parseJson: JsonParser, open: Opener)
    requires StartsWith(header, DataUrls.ImagePrefix) && !Contains(header, DataUrls.Comma)
    requires parseJson(body) == Ok(map["image_data" := header + DataUrls.Comma + payload])
    ensures JsonInput(body, parseJson, open) == WithPrefix(JsonFailurePrefix, Base64.Decode(payload))
  {
    DataUrls.DataUrlPayload(header, payload);
  }

  /** A result data URL posted back as JSON hands rembg the very bytes it
      was built from. */
  lemma ResultFedBack(request: Request, out: Bytes, parseJson: JsonParser, open: Opener)
    requires request.contentLength.Ok? && request.contentLength.value != 0
    requires KindOf(request.contentType) == JsonBody
    requires parseJson(request.body) == Ok(map["image_data" := Succeeded(out).image])
    ensures ReadInput(request, parseJson, open) == Ok(out)
  {
    ResultIsInline(out);
  }
}

=== FILE: vercel_url.dfy ===
/** The serverless handler of python-bg-vercel/api/remove-background-url.py.
    It reads a JSON `image_data` (a data URL, or anything else as a URL),
    posts the bytes to a hosted inference model, and replies with status 200
    whatever happens; the JSON body's `success` field tells the outcome.
    Failures while reading the input carry one prefix; failures of the
    inference call carry none. */
module VercelUrl {
  import opened Results
  import opened Text
  import opened Seqs
  import opened Http
  import opened ImageData
  import DataUrls
  import Base64

  /** A POST as the handler sees it: the parsed Content-Length (or what
      `int` raised) and the bytes read. */
  datatype Request = Request(contentLength: Result<int>, body: Bytes)

  const InputFailurePrefix := "Failed to process image data: "
  const ApiUrl := "https://api-inference.huggingface.co/models/briaai/RMBG-1.4"
  const ApiErrorPrefix := "HuggingFace API error: "

  /** The input stage: decode or fetch `image_data`; an absent or empty one
      is refused before anything is decoded or fetched. */
  function ReadInput(body: Bytes, parseJson: JsonParser, open: Opener): (r: Result<Bytes>)
    ensures r.Err? ==> StartsWith(r.error, InputFailurePrefix)
    ensures parseJson(body).Err? ==> r == Err(InputFailurePrefix + parseJson(body).error)
    ensures parseJson(body).Ok? ==>
      var fields := parseJson(body).value;
      ("image_data" !in fields || fields["image_data"] == "") ==> r == Err(InputFailurePrefix + NoImageData)
    ensures parseJson(body).Ok? && "image_data" in parseJson(body).value ==>
      var imageData := parseJson(body).value["image_data"];
      imageData != "" ==>
        r == WithPrefix(InputFailurePrefix,
                        if StartsWith(imageData, DataUrls.ImagePrefix) then DataUrls.DecodeDataUrl(imageData)
                        else open(imageData))
  {
    var loaded :=
      match parseJson(body)
      case Err(e) => Err(e)
      case Ok(fields) =>
        var imageData := if "image_data" in fields then fields["image_data"] else "";
        if imageData == "" then Err(NoImageData)
        else if ClassifyLenient(imageData) == InlineData then DataUrls.DecodeDataUrl(imageData)
        else open(imageData);
    WithPrefix(InputFailurePrefix, loaded)
  }

  /** `do_POST`. */
  function Post(request: Request, parseJson: JsonParser, open: Opener, post: Poster): (r: Response)
    ensures r.status == 200
    ensures !r.payload.BareError?
    ensures request.contentLength.Err? ==> r.payload == Failure(request.contentLength.error)
    ensures request.contentLength.Ok? ==>
      var input := ReadInput(request.body, parseJson, open);
      && (input.Err? ==> r.payload == Failure(input.error))
      && (input.Ok? && post(ApiUrl, input.value).Ok? && post(ApiUrl, input.value).value.status != 200 ==>
            r.payload == Failure(ApiErrorPrefix + NatToString(post(ApiUrl, input.value).value.status)))
      && (r.payload.Success? <==>
            input.Ok? && post(ApiUrl, input.value).Ok? && post(ApiUrl, input.value).value.status == 200)
      && (input.Ok? && post(ApiUrl, input.value).Err? ==> r.payload == Failure(post(ApiUrl, input.value).error))
      && (r.payload.Success? ==> r.payload == Succeeded(post(ApiUrl, input.value).value.content))
      && (r.payload.Success? ==>
            DataUrls.DecodeDataUrl(r.payload.image) == Ok(post(ApiUrl, input.value).value.content))
  {
    match request.contentLength
    case Err(e) => Response(200, Failure(e))
    case Ok(_) =>
      match ReadInput(request.body, parseJson, open)
      case Err(e) => Response(200, Failure(e))
      case Ok(input) =>
        match post(ApiUrl, input)
        case Err(e) => Response(200, Failure(e))
        case Ok(response) =>
          if response.status != 200 then Response(200, Failure(ApiErrorPrefix + NatToString(response.status)))
          else Response(200, Succeeded(response.content))
  }

  /** When the input stage fails, the inference service is never consulted:
      the reply is the same whatever it would have answered. */
  lemma InputFailureSkipsInference(request: Request, parseJson: JsonParser, open: Opener, post1: Poster, post2: Poster)
    requires ReadInput(request.body, parseJson, open).Err?
    ensures Post(request, parseJson, open, post1) == Post(request, parseJson, open, post2)
  {
  }

  /** An inference error is not mistaken for an input error: its text never
      carries the input-stage prefix. */
  lemma ApiErrorIsUnprefixed(status: StatusCode)
    ensures !StartsWith(ApiErrorPrefix + NatToString(status), InputFailurePrefix)
  {
    var m := ApiErrorPrefix + NatToString(status);
    assert m[0] == 'H' && InputFailurePrefix[0] == 'F';
  }

  /** A data URL is sent to the inference service as the base64 decoding of
      everything after its header's comma, for every comma-free header; a
      decoding failure carries the input-stage prefix. */
  lemma DataUrlInput(body: Bytes, header: string, payload: string, parseJson: JsonParser, open: Opener)
    requires StartsWith(header, DataUrls.ImagePrefix) && !Contains(header, DataUrls.Comma)
    requires parseJson(body) == Ok(map["image_data" := header + DataUrls.Comma + payload])
    ensures ReadInput(body, parseJson, open) == WithPrefix(InputFailurePrefix, Base64.Decode(payload))
  {
    DataUrls.DataUrlPayload(header, payload);
  }

  /** A result data URL posted back as `image_data` sends the inference
      service exactly the bytes it was built from. */
  lemma ResultFedBack(body: Bytes, out: Bytes, parseJson: JsonParser, open: Opener)
    requires parseJson(body) == Ok(map["image_data" := Succeeded(out).image])
    ensures ReadInput(body, parseJson, open) == Ok(out)
  {
    ResultIsInline(out);
    assert Succeeded(out).image != "";
  }
}
